=== FILE: README.md ===
# AI Carbon Tracker: usage estimation and aggregation, modelled in Dafny

This project models the browser extension's usage pipeline in Dafny. The extension tracks the energy and water cost of conversations with ChatGPT and Claude. Each site's content script works the same way:

- it keeps `lastUserTokens`, the token estimate of the last user message;
- each time `processCompleteResponse` runs on an assistant message, it adds that message's estimate (one token per four characters, rounded up);
- it prices the sum with its site's rate table, in Wh per 1000 tokens;
- it sends one usage record to the background worker for that call and sets `lastUserTokens` back to 0.

The background worker folds each record into two aggregates: the lifetime `totalUsage` and the current `sessionUsage`. Each aggregate has a per-model breakdown. The worker also appends the record to a history capped at 100 entries, writes four storage keys and sets the badge to the session count. The popup reads the stored figures, with defaults for absent keys. It offers two resets, each gated by confirmation, and lists the breakdown by descending count.

Modules, one per file:

- `Optional` (optional.dfy): an absent storage key or value.
- `Decimal` (decimal.dfy): decimal rendering of the badge count, with a parser as its inverse.
- `Text` (text.dfy): JavaScript `trim()` and blank-message detection, plus the token heuristic. A `char` stands for one UTF-16 code unit wherever that matters; a Dafny `char` cannot be a lone surrogate, so a surrogate code unit is stood for by any non-whitespace `char`. Only length and whitespace matter here.
- `Rates` (rates.dfy): the two `ENERGY_RATES` tables, the fallback model names, the rate lookup and `calculateUsage`.
- `Usage` (usage.dfy): the following pieces.
  - Breakdown entries, aggregates and usage records.
  - The merge of one record into an aggregate.
  - The breakdown-sum invariant.
  - Folding a sequence of records, with a reference tally.
  - Agreement with the estimator.
  - The capped history.
- `Store` (store.dfy): local storage as a record of optional keys, the badge beside it, and reads with defaults.
- `Background` (background.dfy): `aggregateUsage`, `updateBadge`, and the `onStartup` and `onInstalled` handlers.
- `ContentScript` (contentscript.dfy): the per-tab `lastUserTokens` state machine, the record a turn sends, the Claude toast decision, and the end-to-end property.
- `Popup` (popup.dfy): `loadData`, `resetSession`, `resetAll`, the notification toggle, and the order of the breakdown list.

Energy and water are exact `real`s. Tokens and counts are `nat`s. Every handler is one atomic step from state to state. The handlers' parameters stand in for what the source gets from the environment:

- `now` stands for `Date.now()`;
- `confirmed`, `first` and `second` stand for the answers to `confirm()`;
- `detected` stands for the result of the DOM model-detection heuristic;
- `text` stands for a message element's text.

Behaviour of the code worth knowing when reading the contracts:

- `calculateUsage` does not clamp its token count; it multiplies whatever it gets (content.js:61-70). Tokens are `nat` here because they are always a ceiling of a text length.
- `aggregateUsage` shifts at most one element per push (background.js:79-82), so a stored history longer than 100 stays longer. `AppendCapped` states exactly this, and the 100-element bound is promised only for a history of at most 100 beforehand.
- The background does not re-estimate a record; it adds the `energyWh` and `waterLiters` it receives (background.js:43-76). The end-to-end guarantee comes from composing the content script's estimator with the merge (`ContentScript.RunThenAggregateCalibrated`).
- Nothing resets the session when the browser starts: `onStartup` only blanks the badge (background.js:117-119). `onInstalled` writes neither `lastUpdated` nor `toastEnabled` (background.js:122-147).
- A `Response` event stands for one `processCompleteResponse` call, not for one assistant message. The ChatGPT script calls `observeChat` at load and again two seconds later (content.js:196-203). That registers a second `MutationObserver` on the same container, so each assistant message starts two completion polls and is processed twice. The second record then carries `userTokens` 0 and the message's tokens again (`ResponseConsumesUserTokens`).
- The Claude completion check (content-claude.js:305-310) falls back to `querySelector('button:has-text("Stop")')`. `:has-text` is not a CSS pseudo-class, so the call throws whenever no button's `aria-label` contains "Stop". The throw happens inside the polling callback (content-claude.js:316-323), before the 120-check limit is tested, so such a poll never clears itself and never reaches `processCompleteResponse`. The Claude contracts describe what `processCompleteResponse` does when it is called.
- Two `aggregateUsage` calls can interleave their `get` and `set`; the model treats each call as atomic (see Left out).

## Model

| member | source | states |
|---|---|---|
| Text.EstimateTokens | content.js:24-27 | the token estimate t of a text of length n is the ceiling of n/4: 4t ≥ n, 4t < n+4, and t = 0 exactly for empty text |
| Text.EstimateTokensMonotone | content-claude.js:205-207 | a longer text never gets a smaller token estimate |
| Text.TrimStart | content.js:76 | the result is a suffix of the text, everything dropped is whitespace, and it does not start with whitespace |
| Text.TrimEnd | content.js:76 | the result is a prefix of the text, everything dropped is whitespace, and it does not end with whitespace |
| Text.Trim | content.js:76 | `trim()` gives the text minus its leading whitespace, cut only by whitespace at the end; the result neither starts nor ends with whitespace and is empty exactly for an all-whitespace text |
| Text.TrimStartEmpty | content.js:76 | dropping leading whitespace empties exactly the texts that are all whitespace |
| Text.IsBlank | content.js:139 | a message is blank exactly when trimming its leading whitespace alone empties it |
| Text.BlankIffAllWhitespace | content.js:76-78 | `trim().length === 0` holds exactly when every character is JavaScript whitespace or a line terminator |
| Rates.RateTable | content.js:14-21 | each site's table has a `default` entry: 2.0 Wh per 1000 tokens on ChatGPT, 1.8 on Claude (content-claude.js:16-27) |
| Rates.RatesPositive | content-claude.js:16-27 | every rate in either table is positive |
| Rates.Rate | content.js:62 | a model in the site's table gets its own rate, any other model gets the table's `default`; every rate is positive, so the fallback a falsy zero entry would trigger never applies |
| Rates.LookupRate | content.js:62 | `table[model] || table['default']`: the model's own non-zero rate when it has one, otherwise the default; never zero when the default is not |
| Rates.ModelOrFallback | content-claude.js:232-234 | a detected model is used as is; when detection finds nothing the record names the site's fallback, `gpt-4` on ChatGPT and `claude-sonnet-4.5` on Claude, which is a key of the site's table |
| Rates.CalculateUsage | content.js:61-70 | energy·1000 = tokens·rate and water·1000 = energy·0.35; both are non-negative, and energy is zero exactly for zero tokens |
| Rates.CalculateUsageAdditive | content-claude.js:237-244 | energy and water are additive in tokens for a fixed model |
| Rates.CalculateUsageMonotone | content.js:61-63 | more tokens on the same model never cost less energy |
| Rates.UnknownModelUsesDefault | content.js:14-21 | an unknown model is priced exactly like `default`: 2.0 Wh per 1000 tokens on ChatGPT, 1.8 on Claude |
| Rates.ClaudeFallbackMatchesDefault | content-claude.js:16-27 | on Claude, failed detection (fallback `claude-sonnet-4.5`) and an unknown model name give identical estimates |
| Rates.ClaudeFamilyOrdering | content-claude.js:16-27 | for equal tokens: opus ≥ every sonnet variant ≥ every haiku variant ≥ instant |
| Rates.Gpt4ThousandTokens | content.js:14-21 | 1000 tokens on `gpt-4` cost 2.0 Wh and 0.0007 L |
| Usage.EmptyTotal | background.js:21-27 | the zero total has no tokens, energy, water or conversations, an empty breakdown and no start time |
| Usage.EmptySession | background.js:30-37 | the zero session has no tokens, energy, water or conversations, an empty breakdown, and starts at the given time |
| Usage.Merge | background.js:43-76 | one record adds 1 / its tokens / its energy to count / tokens / energy, and its water to water. The record's model entry (created at zero if absent) grows by the same, other models' entries are unchanged, and no other key appears |
| Usage.Fold | background.js:43-76 | merging records one after another adds one conversation per record, keeps `startTime`, and never removes a breakdown model |
| Usage.EmptyConsistent | popup.js:135-142 | the zero aggregates written on install and on reset satisfy the breakdown-sum invariant |
| Usage.MergeConsistent | background.js:49-58 | merging a record keeps the breakdown sums of count, tokens and energy equal to the aggregate totals |
| Usage.MergeCommutes | background.js:61-76 | merging two records in either order yields the same aggregate |
| Usage.FoldConsistent | background.js:43-76 | any sequence of merges keeps the breakdown-sum invariant |
| Usage.FoldTotals | background.js:43-46 | folding records grows the count, token and energy totals by exactly the reference tally of all records |
| Usage.FoldWater | background.js:45-63 | folding records grows the water total by exactly the sum of the records' water |
| Usage.FoldEntry | background.js:56-58 | folding grows each model's entry by exactly the tally of that model's records |
| Usage.FoldKeys | background.js:49-55 | after folding, a model has an entry iff it had one before or some record names it |
| Usage.FoldFromEmptyTotals | background.js:21-46 | from the zero total, the count, token and energy totals are the reference tally of all records, the count is the number of records, and the water total is the sum of the records' water |
| Usage.FoldFromEmptyEntry | background.js:48-58 | from the zero total, each model's entry is the reference tally of that model's records |
| Usage.FoldFromEmptyKeys | background.js:48-55 | from the zero total, the breakdown's models are exactly the models the records name |
| Usage.TallyAllCount | background.js:46 | the reference tally counts one conversation per record |
| Usage.MergeCalibrated | background.js:56-58 | for any per-model rate table: merging a record priced by the table into an aggregate whose entries are all priced by it keeps every entry's energy equal to its tokens times its model's rate / 1000, and total water at 0.35 L per kWh of total energy |
| Usage.MergeCalibratedEntry | background.js:56-58 | the merged record's own model entry stays priced by the rate table |
| Usage.FoldCalibrated | background.js:43-58 | the same holds after folding any sequence of records priced by one rate table |
| Usage.AppendCapped | background.js:79-82 | pushing onto a history shorter than 100 appends; otherwise exactly the oldest element is dropped; the new record is always last |
| Usage.AppendAll | background.js:78-82 | appending records one at a time keeps a history of at most 100 within 100, leaves the newest record last, and appending nothing changes nothing |
| Usage.AppendAllKeepsNewest | background.js:78-82 | from a history of at most 100, any run of appends leaves the last min(n, 100) elements of history-plus-appended, in order |
| Usage.AppendAllFromEmpty | background.js:40-82 | an empty history after n appends holds the newest min(n, 100) records, oldest first |
| Store.ToastEnabled | content-claude.js:137-138 | an absent `toastEnabled` reads as true, a stored one as itself |
| Store.ReadTotal | background.js:21-27 | a stored total is read as stored; an absent one as zero tokens, energy, water and count, with an empty breakdown and no start time |
| Store.ReadSession | background.js:30-37 | a stored session is read as stored; an absent one as a zero session whose start time is now |
| Store.ReadHistory | background.js:40 | a stored history is read as stored; an absent one as empty |
| Store.ReadWellFormed | background.js:21-40 | reading a well-formed store, with defaults for absent keys, gives consistent aggregates and a history within the cap |
| Decimal.NatToString | background.js:109 | the badge string is non-empty, all decimal digits, and has no leading zero unless the count is 0 |
| Decimal.ParseNatToString | background.js:109 | reading the rendered count back gives the count |
| Decimal.NatToStringInjective | background.js:107-110 | different counts never show the same badge text |
| Background.BadgeText | background.js:107-114 | the badge is empty exactly when the count is 0; otherwise it is a digit string without a leading zero that reads back as the count |
| Background.UpdateBadge | background.js:107-114 | only the badge changes, and it shows the count's badge text |
| Background.AggregateUsage | background.js:15-104 | the three keys absent in storage read as zero aggregates and an empty history. The stored total and session become the defaults-or-stored aggregates with the record merged in (so they grow by the record), history gets the capped append, `lastUpdated` becomes now, `toastEnabled` is kept, and the badge is the badge text of the new session count (≥ 1), reading back as that count |
| Background.AggregateWellFormed | background.js:43-90 | aggregation keeps stored aggregates consistent and the history within the cap |
| Background.AggregateAllIsFold | background.js:6-12 | handling a run of `USAGE_RECORDED` messages is the fold of the records into total and session and the capped append to history; `toastEnabled` is untouched |
| Background.AggregateAll | background.js:6-12 | handling no messages changes nothing; handling some sets `lastUpdated` and a history; `toastEnabled` is never touched |
| Background.AggregateFromEmpty | background.js:18-90 | from empty storage, n records leave a consistent total with count n and a history of the newest min(n, 100) records, oldest first |
| Background.FirstGpt4Turn | background.js:43-58 | a 1000-token `gpt-4` turn on empty storage gives count 1, 2.0 Wh, 0.0007 L, breakdown {gpt-4: 1 / 1000 / 2.0} and history [record] |
| Background.Gpt4Figures | content.js:61-70 | a 1000-token `gpt-4` record priced at ChatGPT's rates carries exactly 2.0 Wh and 0.0007 L |
| Background.MergeIntoEmpty | background.js:21-58 | merging one record into the zero total gives count 1, the record's energy and water, and a breakdown holding only that record's model with 1 / its tokens / its energy |
| Background.OnStartup | background.js:117-119 | browser startup blanks the badge and leaves all storage, including the session, unchanged |
| Background.OnInstalled | background.js:122-147 | zero total, zero session and empty history are written only when no total is stored; otherwise nothing changes; well-formedness is kept |
| Background.OnInstalledIdempotent | background.js:126-127 | installing twice has the effect of installing once |
| ContentScript.NewTab | content.js:11 | a page starts with no user tokens pending |
| ContentScript.TrackUserMessage | content.js:136-146 | a blank user message leaves the tab state alone; a non-blank one replaces `lastUserTokens` with its own ceiling-of-length/4 estimate |
| ContentScript.TrackKeepsLatest | content-claude.js:326-337 | user estimates do not accumulate: only the latest non-blank message counts |
| ContentScript.TrackIdempotent | content.js:139-140 | tracking the same message twice is tracking it once |
| ContentScript.ProcessCompleteResponse | content-claude.js:246-303 | a blank response sends nothing and keeps `lastUserTokens`. Otherwise the record has the stored user tokens, the response's estimate and their sum as total; it is priced by the site's estimator under the detected or fallback model, and `lastUserTokens` becomes 0 |
| ContentScript.SentIsPriced | content.js:87-100 | every record a response produces carries energy = tokens × its site's rate for its model / 1000 and water = 0.35 L per kWh of that energy |
| ContentScript.ResponseConsumesUserTokens | content.js:106-107 | after a non-blank response, the next response is charged only its own tokens |
| ContentScript.Run | content.js:73-146 | a tab sends exactly one record per non-blank response and none for user messages or blank responses, and every record it sends is priced by its own site's estimator |
| ContentScript.Step | content.js:73-146 | one page event sends a record exactly when it is a non-blank response, and the record is priced at the site's rates and tagged with the site; a user message is `trackUserMessage` and a response is `processCompleteResponse` |
| ContentScript.Answered | content.js:73-78 | lists, in increasing order, exactly the positions of responses that are not blank |
| ContentScript.RunFrom | content.js:73-146 | running from the estimate pending after a prefix of the events sends one record per later non-blank response, each answering its position, and ends with the estimate pending after all events |
| ContentScript.StepPending | content.js:73-146 | one event moves the tab from the estimate pending before it to the estimate pending after it, and a record it sends answers that event |
| ContentScript.RunSendsAnswers | content.js:73-146 | a tab sends exactly one record per non-blank response, in order. Each carries the estimate of the latest non-blank user message since the previous non-blank response (or the starting estimate), the response's own estimate, their sum, the site's figures for the detected or fallback model, and the response's time; afterwards the tab holds the estimate still pending |
| ContentScript.PendingSkipsBlank | content.js:139 | blank user messages and blank responses do not change the pending user estimate |
| ContentScript.PendingLatest | content.js:139-141 | the pending estimate is that of the latest non-blank user message when only blank events follow it |
| ContentScript.PendingAfterAnswer | content.js:106-107 | after a non-blank response followed only by blank events, no user tokens are pending |
| ContentScript.RunThenAggregateCalibrated | content.js:87-101 | records sent by a tab, aggregated from empty storage, leave total and session consistent; every model's energy equals the estimator's price of its token total; water is 0.35 L per kWh |
| ContentScript.ShowsToast | content-claude.js:136-143 | the Claude toast appears exactly when the send succeeded and the flag is absent or true |
| Popup.LoadData | popup.js:100-122 | stored aggregates are shown as stored; an absent total is the zero total and an absent session the zero session starting now (all counts, tokens, energy and water 0, empty breakdown); the toggle is on unless `false` is stored |
| Popup.LoadDataConsistent | popup.js:104-119 | the popup of a well-formed store shows aggregates whose breakdown sums to their totals |
| Popup.ResetSession | popup.js:132-150 | declined: nothing changes. Confirmed: only `sessionUsage` is replaced by a zero session starting now, and the badge is blanked; well-formedness is kept |
| Popup.ResetAll | popup.js:153-181 | unless both confirmations are accepted nothing changes; then total, session and history become zero/empty, the badge is blanked, and `toastEnabled`/`lastUpdated` are kept |
| Popup.ResetSessionView | popup.js:132-148 | after a session reset the popup shows the zero session started at the reset (no conversations, tokens, energy or water, empty breakdown) and the same total and toggle as before |
| Popup.ResetAllView | popup.js:153-178 | after a full reset the popup shows the zero total and the zero session started at the reset, water included, with the toggle unchanged |
| Popup.SetToastEnabled | popup.js:192-196 | the toggle writes only `toastEnabled`, and reading it back gives the chosen value |
| Popup.MaxCountKey | popup.js:83-84 | returns a model of the breakdown whose count is not exceeded by any other |
| Popup.DisplayModelBreakdown | popup.js:72-97 | the list holds every breakdown entry exactly once with its own figures, ordered by non-increasing count, and is empty exactly for an empty breakdown |

## Left out

- DOM observation and timing are left out: the `MutationObserver`, the 500 ms completion polling with its 120-check limit, the stop-button test and the `setTimeout` retries. Each `processCompleteResponse` call is an input to `ProcessCompleteResponse`.
- Which DOM changes lead to a `processCompleteResponse` call is left out, so a `Response` event stands for one such call and not for one assistant message. The duplicate ChatGPT observer and the throwing Claude selector described above are therefore not modelled.
- The model-detection heuristics `detectChatGPTModel` and `detectClaudeModel` scan the live page and URL, so their result is the `detected` parameter. Only the fallback constants (`gpt-4`, `claude-sonnet-4.5`) are modelled.
- `innerText || textContent` is a DOM choice, so the message text is an input.
- Toast rendering and style injection, popup display, `formatNumber`, `toFixed`, `toLocaleString` and `CONVERSIONS` are presentation or float-to-string formatting.
- The badge background colour is a pure display side effect.
- `chrome.runtime` messaging and the real `chrome.storage` API are replaced by a record of optional keys and pure handlers. Storage and messaging failures are not modelled; the model covers successful calls. `ShowsToast` takes the send outcome as a parameter.
- The lost-update race between two concurrent `aggregateUsage` calls is left out. The async get/set can interleave across tabs, but that is concurrency, and each handler is modelled as one atomic read-modify-write.
- IEEE double rounding is left out because all quantities are exact reals. `Number.prototype.toString` switches to exponent notation at 10^21 or more, which no conversation count reaches, so it is not modelled.
- JavaScript prototype keys (`constructor`, `toString`, …) as model names are left out. The table or breakdown lookup would find inherited properties for them, but neither detection function ever returns such a name.
- `Background.AggregateUsage`: uses one `now` for both the fresh session's `startTime` and `lastUpdated`. The source calls `Date.now()` twice, a few milliseconds apart.
- `Popup.DisplayModelBreakdown`: does not fix the order among equal counts. `Array.prototype.sort` is stable over `Object.entries` insertion order, and the map type here has no insertion order.
- `generate_icons.py` and console logging are left out because they contain no pipeline logic.

=== FILE: background.dfy ===
/** The background service worker: folding a usage record into storage,
    the badge, and the install and startup handlers. */
module Background {
  import opened Optional
  import opened Decimal
  import opened Rates
  import opened Usage
  import opened Store

  /** `updateBadge(count)`: the decimal count when positive, blank otherwise. */
  function BadgeText(count: nat): (text: string)
    ensures text == "" <==> count == 0
    ensures count > 0 ==> (forall i :: 0 <= i < |text| ==> IsDigit(text[i])) && ParseDecimal(text) == count
    ensures count > 0 ==> text[0] != '0'
  {
    if count > 0 then ParseNatToString(count); NatToString(count) else ""
  }

  function UpdateBadge(x: Extension, count: nat): (y: Extension)
    ensures y.storage == x.storage
    ensures y.badge == BadgeText(count)
  {
    x.(badge := BadgeText(count))
  }

  /** `aggregateUsage(newUsage)` as one atomic read-modify-write: read the
      three keys (absent ones as zero aggregates and an empty history),
      merge the record into total and session, append it to the capped
      history, write those three keys plus `lastUpdated`, and show the new
      session count on the badge. The record's energy and water are taken
      as sent; they are not recomputed here. */
  function AggregateUsage(x: Extension, u: UsageRecord, now: int): (y: Extension)
    ensures y.storage.totalUsage.Some? && y.storage.sessionUsage.Some? && y.storage.history.Some?
    ensures Totals(y.storage.totalUsage.value) == Plus(Totals(ReadTotal(x.storage)), Contribution(u))
    ensures Totals(y.storage.sessionUsage.value) == Plus(Totals(ReadSession(x.storage, now)), Contribution(u))
    ensures y.storage.totalUsage == Some(Merge(ReadTotal(x.storage), u))
    ensures y.storage.sessionUsage == Some(Merge(ReadSession(x.storage, now), u))
    ensures y.storage.totalUsage.value.totalWaterLiters == ReadTotal(x.storage).totalWaterLiters + u.waterLiters
    ensures y.storage.sessionUsage.value.totalWaterLiters == ReadSession(x.storage, now).totalWaterLiters + u.waterLiters
    ensures y.storage.history.value == AppendCapped(ReadHistory(x.storage), u)
    ensures y.storage.lastUpdated == Some(now)
    ensures y.storage.toastEnabled == x.storage.toastEnabled
    ensures y.storage.sessionUsage.value.conversationCount >= 1
    ensures && (forall i :: 0 <= i < |y.badge| ==> IsDigit(y.badge[i]))
            && ParseDecimal(y.badge) == y.storage.sessionUsage.value.conversationCount
    ensures y.badge == BadgeText(y.storage.sessionUsage.value.conversationCount)
  {
    var total := Merge(ReadTotal(x.storage), u);
    var session := Merge(ReadSession(x.storage, now), u);
    var history := AppendCapped(ReadHistory(x.storage), u);
    var storage := x.storage.(
      totalUsage := Some(total),
      sessionUsage := Some(session),
      history := Some(history),
      lastUpdated := Some(now));
    UpdateBadge(Extension(storage, x.badge), session.conversationCount)
  }

  /** Aggregation keeps storage well formed. */
  lemma AggregateWellFormed(x: Extension, u: UsageRecord, now: int)
    requires WellFormed(x.storage)
    ensures WellFormed(AggregateUsage(x, u, now).storage)
  {
    ReadWellFormed(x.storage, now);
    MergeConsistent(ReadTotal(x.storage), u);
    MergeConsistent(ReadSession(x.storage, now), u);
  }

  /** Aggregating records one after another. */
  function AggregateAll(x: Extension, us: seq<UsageRecord>, now: int): (y: Extension)
    ensures us == [] ==> y == x
    ensures us != [] ==> y.storage.lastUpdated == Some(now) && y.storage.history.Some?
    ensures y.storage.toastEnabled == x.storage.toastEnabled
    decreases |us|
  {
    if us == [] then x else AggregateAll(AggregateUsage(x, us[0], now), us[1..], now)
  }

  /** Handling records one message at a time is the fold of the records
      into the stored aggregates and the capped append to the stored
      history; `toastEnabled` is never touched. */
  lemma {:induction false} AggregateAllIsFold(x: Extension, us: seq<UsageRecord>, now: int)
    requires us != []
    ensures AggregateAll(x, us, now).storage.totalUsage == Some(Fold(ReadTotal(x.storage), us))
    ensures AggregateAll(x, us, now).storage.sessionUsage == Some(Fold(ReadSession(x.storage, now), us))
    ensures AggregateAll(x, us, now).storage.history == Some(AppendAll(ReadHistory(x.storage), us))
    ensures AggregateAll(x, us, now).storage.toastEnabled == x.storage.toastEnabled
    decreases |us|
  {
    var y := AggregateUsage(x, us[0], now);
    if |us| > 1 {
      AggregateAllIsFold(y, us[1..], now);
    }
  }

  /** Starting from empty storage, any run of records leaves a total whose
      breakdown sums to its totals, whose count is the number of records,
      and a history holding the newest `min(n, 100)` records, oldest first. */
  lemma {:induction false} AggregateFromEmpty(us: seq<UsageRecord>, now: int)
    requires us != []
    ensures var s := AggregateAll(Extension(EmptyStorage(), ""), us, now).storage;
      && s.totalUsage.Some? && Consistent(s.totalUsage.value)
      && s.totalUsage.value.conversationCount == |us|
      && s.history == Some(Newest(us, Min(|us|, HistoryCap)))
  {
    var x := Extension(EmptyStorage(), "");
    AggregateAllIsFold(x, us, now);
    assert ReadTotal(x.storage) == EmptyTotal();
    EmptyConsistent(now);
    FoldConsistent(EmptyTotal(), us);
    FoldFromEmptyTotals(us);
    FromEmptyHistory(us);
  }

  /** The empty history appended with any records holds the newest
      `min(n, 100)` of them. */
  lemma FromEmptyHistory(us: seq<UsageRecord>)
    ensures AppendAll(ReadHistory(EmptyStorage()), us) == Newest(us, Min(|us|, HistoryCap))
  {
    assert ReadHistory(EmptyStorage()) == [];
    AppendAllFromEmpty(us);
  }

  /** 1000 tokens on `gpt-4` against empty storage: 2.0 Wh and 0.0007 L,
      one conversation, and a breakdown entry of 1 / 1000 / 2.0. */
  lemma FirstGpt4Turn(u: UsageRecord, now: int)
    requires u.site == ChatGpt && u.model == "gpt-4" && u.totalTokens == 1000
    requires Priced(SitePrice(ChatGpt), u)
    ensures var s := AggregateUsage(Extension(EmptyStorage(), ""), u, now).storage;
      && s.totalUsage.value.conversationCount == 1
      && s.totalUsage.value.totalEnergyWh == 2.0
      && s.totalUsage.value.totalWaterLiters == 0.0007
      && s.totalUsage.value.modelBreakdown == map["gpt-4" := Entry(1, 1000, 2.0)]
      && s.history == Some([u])
  {
    var s := AggregateUsage(Extension(EmptyStorage(), ""), u, now).storage;
    assert ReadTotal(EmptyStorage()) == EmptyTotal();
    assert s.totalUsage == Some(Merge(EmptyTotal(), u));
    assert ReadHistory(EmptyStorage()) == [];
    assert s.history == Some(AppendCapped([], u));
    assert AppendCapped([], u) == [u];
    Gpt4Figures(u);
    MergeIntoEmpty(u);
  }

  /** A priced 1000-token `gpt-4` record carries 2.0 Wh and 0.0007 L. */
  lemma Gpt4Figures(u: UsageRecord)
    requires u.model == "gpt-4" && u.totalTokens == 1000
    requires Priced(SitePrice(ChatGpt), u)
    ensures u.energyWh == 2.0 && u.waterLiters == 0.0007
  {
    assert SitePrice(ChatGpt)(u.model) == 2.0;
    assert u.energyWh * 1000.0 == 2000.0;
  }

  /** The zero total merged with one record holds exactly that record. */
  lemma MergeIntoEmpty(u: UsageRecord)
    ensures var t := Merge(EmptyTotal(), u);
      && t.conversationCount == 1 && t.totalEnergyWh == u.energyWh
      && t.totalWaterLiters == u.waterLiters
      && t.modelBreakdown == map[u.model := Entry(1, u.totalTokens, u.energyWh)]
  {
    var t := Merge(EmptyTotal(), u);
    assert EntryOf(EmptyTotal(), u.model) == ZeroEntry();
    assert t.modelBreakdown.Keys == {u.model};
  }

  /** `onStartup`: only the badge is cleared; the session is not reset. */
  function OnStartup(x: Extension): (y: Extension)
    ensures y.storage == x.storage
    ensures y.badge == ""
  {
    UpdateBadge(x, 0)
  }

  /** `onInstalled`: zero aggregates and an empty history are written only
      when no total is stored; otherwise nothing changes. */
  function OnInstalled(x: Extension, now: int): (y: Extension)
    ensures x.storage.totalUsage.Some? ==> y == x
    ensures x.storage.totalUsage.None? ==>
      && y.storage == x.storage.(totalUsage := Some(EmptyTotal()),
                                 sessionUsage := Some(EmptySession(now)),
                                 history := Some([]))
      && y.badge == x.badge
    ensures WellFormed(x.storage) ==> WellFormed(y.storage)
  {
    if x.storage.totalUsage.Some? then x
    else
      EmptyConsistent(now);
      x.(storage := x.storage.(
        totalUsage := Some(EmptyTotal()),
        sessionUsage := Some(EmptySession(now)),
        history := Some([])))
  }

  /** Installing twice is installing once. */
  lemma OnInstalledIdempotent(x: Extension, now: int, later: int)
    ensures OnInstalled(OnInstalled(x, now), later) == OnInstalled(x, now)
  {
  }
}

=== FILE: contentscript.dfy ===
/** The per-tab state of a content script (ChatGPT or Claude): the token
    estimate of the last user message, overwritten by each non-blank user
    message and consumed by the next non-blank response, which produces the
    usage record sent to the background worker. */
module ContentScript {
  import opened Optional
  import opened Text
  import opened Rates
  import opened Usage
  import opened Store
  import opened Background

  /** The script's one piece of mutable state, `lastUserTokens`. */
  datatype Tab = Tab(lastUserTokens: nat)

  /** A fresh page: `let lastUserTokens = 0`. */
  function NewTab(): (t: Tab)
    ensures t.lastUserTokens == 0
  {
    Tab(0)
  }

  /** `trackUserMessage`: a non-blank message replaces the stored estimate
      by its own (earlier messages are not added in); a blank one is ignored. */
  function TrackUserMessage(t: Tab, text: string): (t': Tab)
    ensures IsBlank(text) ==> t' == t
    ensures !IsBlank(text) ==> 4 * t'.lastUserTokens >= |text| && 4 * t'.lastUserTokens < |text| + 4
  {
    if IsBlank(text) then t else Tab(EstimateTokens(|text|))
  }

  /** The outcome of a finished response: the new tab state and the record
      sent to the background, if any. */
  datatype Turn = Turn(tab: Tab, sent: Option<UsageRecord>)

  /** `processCompleteResponse`: a blank response is skipped and changes
      nothing; otherwise the record pairs the stored user estimate with the
      response's estimate, is priced by the site's estimator under the
      detected model (or the site's fallback), and the stored estimate is
      reset to 0 whether or not the message reaches the background. */
  function ProcessCompleteResponse(site: Site, t: Tab, text: string, detected: Option<string>, now: int): (r: Turn)
    ensures IsBlank(text) ==> r == Turn(t, None)
    ensures !IsBlank(text) ==>
      && r.tab == Tab(0)
      && r.sent.Some?
      && r.sent.value.site == site
      && r.sent.value.model == ModelOrFallback(site, detected)
      && r.sent.value.userTokens == t.lastUserTokens
      && 4 * r.sent.value.responseTokens >= |text| && 4 * r.sent.value.responseTokens < |text| + 4
      && r.sent.value.totalTokens == r.sent.value.userTokens + r.sent.value.responseTokens
      && r.sent.value.energyWh == CalculateUsage(site, r.sent.value.totalTokens, r.sent.value.model).energyWh
      && r.sent.value.waterLiters == CalculateUsage(site, r.sent.value.totalTokens, r.sent.value.model).waterLiters
      && r.sent.value.timestamp == now
  {
    if IsBlank(text) then Turn(t, None)
    else
      var responseTokens := EstimateTokens(|text|);
      var totalTokens := t.lastUserTokens + responseTokens;
      var model := ModelOrFallback(site, detected);
      var e := CalculateUsage(site, totalTokens, model);
      Turn(Tab(0), Some(UsageRecord(site, model, t.lastUserTokens, responseTokens, totalTokens,
                                    e.energyWh, e.waterLiters, now)))
  }

  /** A sent record is priced at its site's rate for its model. */
  lemma SentIsPriced(site: Site, t: Tab, text: string, detected: Option<string>, now: int)
    ensures var r := ProcessCompleteResponse(site, t, text, detected, now);
            r.sent.Some? ==> Priced(SitePrice(site), r.sent.value)
  {
    var r := ProcessCompleteResponse(site, t, text, detected, now);
    if r.sent.Some? {
      EstimateIsPriced(site, r.sent.value);
    }
  }

  /** A record carrying the estimator's figures for its tokens and model is
      priced at its site's rates. */
  lemma EstimateIsPriced(site: Site, u: UsageRecord)
    requires u.energyWh == CalculateUsage(site, u.totalTokens, u.model).energyWh
    requires u.waterLiters == CalculateUsage(site, u.totalTokens, u.model).waterLiters
    ensures Priced(SitePrice(site), u)
  {
    PricedByRate(SitePrice(site), u, Rate(site, u.model));
  }

  /** Only the latest non-blank user message counts: tracking `b` after `a`
      is the same as tracking `b` alone. */
  lemma TrackKeepsLatest(t: Tab, a: string, b: string)
    requires !IsBlank(b)
    ensures TrackUserMessage(TrackUserMessage(t, a), b) == TrackUserMessage(NewTab(), b)
  {
  }

  /** Tracking the same message twice is tracking it once. */
  lemma TrackIdempotent(t: Tab, text: string)
    ensures TrackUserMessage(TrackUserMessage(t, text), text) == TrackUserMessage(t, text)
  {
  }

  /** After a non-blank response the user estimate is used up: a second
      response without a new user message is charged its own tokens only. */
  lemma ResponseConsumesUserTokens(site: Site, t: Tab, first: string, second: string,
                                   detected: Option<string>, now: int, later: int)
    requires !IsBlank(first) && !IsBlank(second)
    ensures var r1 := ProcessCompleteResponse(site, t, first, detected, now);
            var r2 := ProcessCompleteResponse(site, r1.tab, second, detected, later);
            r2.sent.value.userTokens == 0 && r2.sent.value.totalTokens == EstimateTokens(|second|)
  {
  }

  /** A page event seen by the content script. */
  datatype PageEvent =
    | UserMessage(text: string)
    | Response(text: string, detected: Option<string>, at: int)

  /** The number of responses among `events` that are not blank. */
  function ResponsesWithText(events: seq<PageEvent>): nat
    decreases |events|
  {
    if events == [] then 0
    else (if events[0].Response? && !IsBlank(events[0].text) then 1 else 0) + ResponsesWithText(events[1..])
  }

  /** Runs a tab over page events, returning its final state and the
      records sent, in order: one record per non-blank response, none for
      user messages or blank responses. */
  function Run(site: Site, t: Tab, events: seq<PageEvent>): (r: (Tab, seq<UsageRecord>))
    ensures SentBy(site, r.1)
    ensures |r.1| == ResponsesWithText(events)
    decreases |events|
  {
    if events == [] then (t, [])
    else
      var turn := Step(site, t, events[0]);
      var rest := Run(site, turn.tab, events[1..]);
      if turn.sent.Some? then
        SentByCons(site, turn.sent.value, rest.1);
        (rest.0, [turn.sent.value] + rest.1)
      else rest
  }

  /** Records all made by `site`'s content script, priced at its rates. */
  predicate SentBy(site: Site, rs: seq<UsageRecord>) {
    forall i :: 0 <= i < |rs| ==> Priced(SitePrice(site), rs[i]) && rs[i].site == site
  }

  lemma SentByCons(site: Site, u: UsageRecord, rs: seq<UsageRecord>)
    requires Priced(SitePrice(site), u) && u.site == site && SentBy(site, rs)
    ensures SentBy(site, [u] + rs)
  {
  }

  /** One page event: a user message updates the estimate, a response may
      send a record; only a non-blank response sends one, priced at the
      site's rates. */
  function Step(site: Site, t: Tab, e: PageEvent): (r: Turn)
    ensures r.sent.Some? <==> e.Response? && !IsBlank(e.text)
    ensures r.sent.Some? ==> Priced(SitePrice(site), r.sent.value) && r.sent.value.site == site
    ensures e.UserMessage? ==> r == Turn(TrackUserMessage(t, e.text), None)
    ensures e.Response? ==> r == ProcessCompleteResponse(site, t, e.text, e.detected, e.at)
  {
    match e
    case UserMessage(text) => Turn(TrackUserMessage(t, text), None)
    case Response(text, detected, at) =>
      SentIsPriced(site, t, text, detected, at);
      ProcessCompleteResponse(site, t, text, detected, at)
  }

  /** An event that makes the script send a record: a non-blank response. */
  predicate Sends(e: PageEvent) {
    e.Response? && !IsBlank(e.text)
  }

  /** The positions, from `from` on and in order, of the events that send. */
  function Answered(events: seq<PageEvent>, from: nat): (ps: seq<nat>)
    requires from <= |events|
    ensures SendingPositions(events, from, ps)
    ensures ListsAllSending(events, from, ps)
    decreases |events| - from
  {
    if from == |events| then []
    else
      var rest := Answered(events, from + 1);
      var here := Sends(events[from]);
      ListsAllSendingStep(events, from, rest, here);
      if here then
        SendingPositionsCons(events, from, rest);
        [from] + rest
      else rest
  }

  /** Every position at or after `from` of an event that sends is in `ps`. */
  predicate ListsAllSending(events: seq<PageEvent>, from: nat, ps: seq<nat>) {
    forall p :: from <= p < |events| && Sends(events[p]) ==> p in ps
  }

  lemma ListsAllSendingStep(events: seq<PageEvent>, from: nat, ps: seq<nat>, here: bool)
    requires from < |events| && here == Sends(events[from]) && ListsAllSending(events, from + 1, ps)
    ensures here ==> ListsAllSending(events, from, [from] + ps)
    ensures !here ==> ListsAllSending(events, from, ps)
  {
  }

  /** `ps` lists, in increasing order, positions at or after `from` of
      events that send. */
  predicate SendingPositions(events: seq<PageEvent>, from: nat, ps: seq<nat>) {
    && (forall i :: 0 <= i < |ps| ==> from <= ps[i] < |events| && Sends(events[ps[i]]))
    && Increasing(ps)
  }

  predicate Increasing(ps: seq<nat>) {
    forall i, j :: 0 <= i < j < |ps| ==> ps[i] < ps[j]
  }

  lemma SendingPositionsCons(events: seq<PageEvent>, from: nat, ps: seq<nat>)
    requires from < |events| && Sends(events[from]) && SendingPositions(events, from + 1, ps)
    ensures SendingPositions(events, from, [from] + ps)
  {
    var qs := [from] + ps;
    forall i | 0 <= i < |qs|
      ensures from <= qs[i] < |events| && Sends(events[qs[i]])
    {
      if i > 0 {
        assert qs[i] == ps[i - 1];
      }
    }
    IncreasingCons(from, ps);
  }

  lemma IncreasingCons(x: nat, ps: seq<nat>)
    requires Increasing(ps) && forall i :: 0 <= i < |ps| ==> x < ps[i]
    ensures Increasing([x] + ps)
  {
    var qs := [x] + ps;
    forall i, j | 0 <= i < j < |qs|
      ensures qs[i] < qs[j]
    {
      assert qs[j] == ps[j - 1];
      if i > 0 {
        assert qs[i] == ps[i - 1];
      }
    }
  }

  /** The user estimate pending after `events`, read backwards from the end:
      the estimate of the latest non-blank user message, unless a non-blank
      response came after it (then 0); `start` when neither occurs. */
  function Pending(start: nat, events: seq<PageEvent>): nat
    decreases |events|
  {
    if events == [] then start
    else
      var e := events[|events| - 1];
      if IsBlank(e.text) then Pending(start, events[..|events| - 1])
      else if e.UserMessage? then EstimateTokens(|e.text|)
      else 0
  }

  /** `u` is the record for the response at position `p` of `events` in a
      tab that started with estimate `start`: the user tokens pending just
      before it plus the response's own estimate, priced under the detected
      model (or the fallback), stamped with the response's time. */
  predicate Answers(site: Site, start: nat, events: seq<PageEvent>, p: nat, u: UsageRecord) {
    && p < |events| && events[p].Response?
    && u.site == site
    && u.model == ModelOrFallback(site, events[p].detected)
    && u.userTokens == Pending(start, events[..p])
    && u.responseTokens == EstimateTokens(|events[p].text|)
    && u.totalTokens == u.userTokens + u.responseTokens
    && u.energyWh == CalculateUsage(site, u.totalTokens, u.model).energyWh
    && u.waterLiters == CalculateUsage(site, u.totalTokens, u.model).waterLiters
    && u.timestamp == events[p].at
  }

  /** Each of `rs` answers the position listed at the same index of `ps`. */
  predicate AnswersAll(site: Site, start: nat, events: seq<PageEvent>, ps: seq<nat>, rs: seq<UsageRecord>) {
    Paired((p, u) => Answers(site, start, events, p, u), ps, rs)
  }

  /** `xs` and `ys` have the same length and are related index by index. */
  predicate Paired<A, B>(R: (A, B) -> bool, xs: seq<A>, ys: seq<B>) {
    |xs| == |ys| && forall i :: 0 <= i < |ys| ==> R(xs[i], ys[i])
  }

  lemma PairedCons<A, B>(R: (A, B) -> bool, x: A, xs: seq<A>, y: B, ys: seq<B>)
    requires R(x, y) && Paired(R, xs, ys)
    ensures Paired(R, [x] + xs, [y] + ys)
  {
    var qs, ts := [x] + xs, [y] + ys;
    forall i | 0 <= i < |ts|
      ensures R(qs[i], ts[i])
    {
      if i > 0 {
        assert qs[i] == xs[i - 1] && ts[i] == ys[i - 1];
      }
    }
  }

  /** What `Run` produces over `events[k..]` from the state pending after
      `events[..k]`: the state pending after all of `events`, and one record
      per sending position from `k` on, each answering its position. */
  lemma {:induction false} RunFrom(site: Site, start: nat, events: seq<PageEvent>, k: nat)
    requires k <= |events|
    ensures var r := Run(site, Tab(Pending(start, events[..k])), events[k..]);
            r.0 == Tab(Pending(start, events)) && AnswersAll(site, start, events, Answered(events, k), r.1)
    decreases |events| - k
  {
    if k == |events| {
      assert events[..k] == events;
      assert events[k..] == [];
    } else {
      var t := Tab(Pending(start, events[..k]));
      var turn := Step(site, t, events[k]);
      StepPending(site, start, events, k);
      RunFrom(site, start, events, k + 1);
      assert events[k..][0] == events[k] && events[k..][1..] == events[k + 1..];
      var rest := Run(site, turn.tab, events[k + 1..]);
      if Sends(events[k]) {
        PairedCons((p, u) => Answers(site, start, events, p, u), k, Answered(events, k + 1), turn.sent.value, rest.1);
        assert Run(site, t, events[k..]).1 == [turn.sent.value] + rest.1;
        assert Answered(events, k) == [k] + Answered(events, k + 1);
      } else {
        assert Run(site, t, events[k..]) == rest;
      }
    }
  }

  /** One step from the state pending after `events[..k]` reaches the state
      pending after `events[..k + 1]`, and a record it sends answers
      position `k`. */
  lemma StepPending(site: Site, start: nat, events: seq<PageEvent>, k: nat)
    requires k < |events|
    ensures var turn := Step(site, Tab(Pending(start, events[..k])), events[k]);
            && turn.tab == Tab(Pending(start, events[..k + 1]))
            && (turn.sent.Some? ==> Answers(site, start, events, k, turn.sent.value))
  {
    var front := events[..k + 1];
    assert front[..k] == events[..k] && front[k] == events[k];
    assert Pending(start, front) ==
      if IsBlank(events[k].text) then Pending(start, events[..k])
      else if events[k].UserMessage? then EstimateTokens(|events[k].text|)
      else 0;
  }

  /** A tab run over page events sends exactly one record per non-blank
      response, in order, each carrying the user estimate pending before
      that response, the response's own estimate, the site's figures for
      the detected (or fallback) model and the response's time; afterwards
      the tab holds the estimate still pending. */
  lemma RunSendsAnswers(site: Site, t: Tab, events: seq<PageEvent>)
    ensures var r := Run(site, t, events);
            var ps := Answered(events, 0);
            && r.0 == Tab(Pending(t.lastUserTokens, events))
            && |r.1| == |ps|
            && forall i :: 0 <= i < |r.1| ==> Answers(site, t.lastUserTokens, events, ps[i], r.1[i])
  {
    RunFrom(site, t.lastUserTokens, events, 0);
    assert events[..0] == [] && events[0..] == events;
  }

  /** Blank events change nothing: what is pending after `events` is what
      was pending before its blank tail. */
  lemma {:induction false} PendingSkipsBlank(start: nat, events: seq<PageEvent>, j: nat)
    requires j <= |events|
    requires forall i :: j <= i < |events| ==> IsBlank(events[i].text)
    ensures Pending(start, events) == Pending(start, events[..j])
    decreases |events|
  {
    if j < |events| {
      var n := |events| - 1;
      var front := events[..n];
      assert Pending(start, events) == Pending(start, front) by {
        assert IsBlank(events[n].text);
      }
      forall i | j <= i < |front|
        ensures IsBlank(front[i].text)
      {
        assert front[i] == events[i];
      }
      PendingSkipsBlank(start, front, j);
      assert front[..j] == events[..j];
    } else {
      assert events[..j] == events;
    }
  }

  /** The pending estimate is that of the latest non-blank user message
      when only blank events follow it. */
  lemma PendingLatest(start: nat, events: seq<PageEvent>, j: nat)
    requires j < |events| && events[j].UserMessage? && !IsBlank(events[j].text)
    requires forall i :: j < i < |events| ==> IsBlank(events[i].text)
    ensures Pending(start, events) == EstimateTokens(|events[j].text|)
  {
    PendingSkipsBlank(start, events, j + 1);
    var upto := events[..j + 1];
    assert upto[|upto| - 1] == events[j];
  }

  /** Once a non-blank response has been answered and only blank events
      follow, nothing is pending. */
  lemma PendingAfterAnswer(start: nat, events: seq<PageEvent>, j: nat)
    requires j < |events| && Sends(events[j])
    requires forall i :: j < i < |events| ==> IsBlank(events[i].text)
    ensures Pending(start, events) == 0
  {
    PendingSkipsBlank(start, events, j + 1);
    var upto := events[..j + 1];
    assert upto[|upto| - 1] == events[j];
  }

  /** End to end: whatever a tab of one site sends, aggregated from empty
      storage, leaves totals whose every model's energy is what that site's
      estimator gives for the model's token total, and whose water total is
      0.35 L per kWh of the energy total. */
  lemma RunThenAggregateCalibrated(site: Site, events: seq<PageEvent>, now: int)
    ensures var s := AggregateAll(Extension(EmptyStorage(), ""), Run(site, NewTab(), events).1, now).storage;
            && (s.totalUsage.Some? ==> Calibrated(SitePrice(site), s.totalUsage.value) && Consistent(s.totalUsage.value))
            && (s.sessionUsage.Some? ==> Calibrated(SitePrice(site), s.sessionUsage.value) && Consistent(s.sessionUsage.value))
  {
    var sent := Run(site, NewTab(), events).1;
    var x := Extension(EmptyStorage(), "");
    if sent != [] {
      AggregateAllIsFold(x, sent, now);
      assert ReadTotal(x.storage) == EmptyTotal();
      assert ReadSession(x.storage, now) == EmptySession(now);
      FoldCalibrated(SitePrice(site), EmptyTotal(), sent);
      FoldCalibrated(SitePrice(site), EmptySession(now), sent);
      EmptyConsistent(now);
      FoldConsistent(EmptyTotal(), sent);
      FoldConsistent(EmptySession(now), sent);
    }
  }

  /** Claude only: the toast appears after a successful send, unless the
      user switched notifications off (an unset flag means on). */
  function ShowsToast(sendSucceeded: bool, s: Storage): (shown: bool)
    ensures shown <==> sendSucceeded && (s.toastEnabled.None? || s.toastEnabled.value)
  {
    sendSucceeded && ToastEnabled(s)
  }
}

=== FILE: decimal.dfy ===
/** Decimal rendering of counters, as done by `Number.prototype.toString`
    for the badge text, together with the reading back of such a string. */
module Decimal {

  predicate IsDigit(c: char) {
    '0' <= c <= '9'
  }

  function DigitChar(d: nat): (c: char)
    requires d < 10
    ensures IsDigit(c)
    ensures c as int - '0' as int == d
  {
    (d + '0' as int) as char
  }

  function DigitValue(c: char): (d: nat)
    requires IsDigit(c)
    ensures d < 10
  {
    c as int - '0' as int
  }

  /** The decimal digits of `n`, most significant first, without leading zeros. */
  function NatToString(n: nat): (s: string)
    ensures 1 <= |s|
    ensures forall i :: 0 <= i < |s| ==> IsDigit(s[i])
    ensures s[0] == '0' <==> n == 0
    ensures n == 0 ==> s == "0"
    decreases n
  {
    if n < 10 then [DigitChar(n)] else NatToString(n / 10) + [DigitChar(n % 10)]
  }

  /** The number a string of decimal digits denotes. */
  function ParseDecimal(s: string): nat
    requires forall i :: 0 <= i < |s| ==> IsDigit(s[i])
    decreases |s|
  {
    if s == [] then 0 else ParseDecimal(s[..|s| - 1]) * 10 + DigitValue(s[|s| - 1])
  }

  /** Rendering then reading back gives the original counter. */
  lemma {:induction false} ParseNatToString(n: nat)
    ensures ParseDecimal(NatToString(n)) == n
    decreases n
  {
    var s := NatToString(n);
    if n < 10 {
      assert s[..|s| - 1] == [];
    } else {
      ParseNatToString(n / 10);
      assert s[..|s| - 1] == NatToString(n / 10);
    }
  }

  /** Distinct counters render to distinct strings. */
  lemma NatToStringInjective(m: nat, n: nat)
    requires NatToString(m) == NatToString(n)
    ensures m == n
  {
    ParseNatToString(m);
    ParseNatToString(n);
  }
}

=== FILE: optional.dfy ===
/** A value that may be absent: models a storage key that was never written,
    a JavaScript `undefined`, or a detection heuristic that found nothing. */
module Optional {

  datatype Option<+T> = None | Some(value: T) {

    /** The value when present, otherwise `default`: the `x || default`
        and `x !== undefined ? x : default` idioms of the extension. */
    function GetOr(default: T): (r: T)
      ensures Some? ==> r == value
      ensures None? ==> r == default
    {
      match this
      case Some(v) => v
      case None => default
    }
  }
}

=== FILE: popup.dfy ===
/** The popup: loading the stored figures with defaults, the two
    confirm-gated resets, the notification toggle, and the order of the
    per-model breakdown list. */
module Popup {
  import opened Optional
  import opened Usage
  import opened Store

  /** What `loadData` hands to the display. */
  datatype View = View(total: Aggregate, session: Aggregate, toastEnabled: bool)

  /** `loadData`: absent aggregates read as zero aggregates (the session
      one started at `now`), an absent toast flag as on. */
  function LoadData(s: Storage, now: int): (v: View)
    ensures s.totalUsage.Some? ==> v.total == s.totalUsage.value
    ensures s.totalUsage.None? ==> v.total == EmptyTotal()
    ensures s.sessionUsage.Some? ==> v.session == s.sessionUsage.value
    ensures s.sessionUsage.None? ==> v.session == EmptySession(now)
    ensures v.toastEnabled <==> s.toastEnabled != Some(false)
  {
    View(ReadTotal(s), ReadSession(s, now), ToastEnabled(s))
  }

  /** The popup of a well-formed store only shows aggregates whose
      breakdown sums to their totals. */
  lemma LoadDataConsistent(s: Storage, now: int)
    requires WellFormed(s)
    ensures Consistent(LoadData(s, now).total) && Consistent(LoadData(s, now).session)
  {
    ReadWellFormed(s, now);
  }

  /** `resetSession`: once confirmed, only the session key is rewritten,
      with a zero session started at `now`, and the badge is cleared;
      declined, nothing changes. */
  function ResetSession(x: Extension, confirmed: bool, now: int): (y: Extension)
    ensures !confirmed ==> y == x
    ensures confirmed ==>
      && y.storage == x.storage.(sessionUsage := Some(EmptySession(now)))
      && y.badge == ""
    ensures WellFormed(x.storage) ==> WellFormed(y.storage)
  {
    if confirmed then
      EmptyConsistent(now);
      Extension(x.storage.(sessionUsage := Some(EmptySession(now))), "")
    else x
  }

  /** `resetAll`: only when both confirmations are accepted are total,
      session and history replaced by zero aggregates and an empty history
      and the badge cleared; `toastEnabled` and `lastUpdated` stay. */
  function ResetAll(x: Extension, first: bool, second: bool, now: int): (y: Extension)
    ensures !(first && second) ==> y == x
    ensures first && second ==>
      && y.storage == x.storage.(totalUsage := Some(EmptyTotal()),
                                 sessionUsage := Some(EmptySession(now)),
                                 history := Some([]))
      && y.badge == ""
    ensures WellFormed(x.storage) || (first && second) ==> WellFormed(y.storage)
  {
    if first && second then
      EmptyConsistent(now);
      Extension(x.storage.(
        totalUsage := Some(EmptyTotal()),
        sessionUsage := Some(EmptySession(now)),
        history := Some([])), "")
    else x
  }

  /** After a confirmed session reset the popup shows the zero session
      started at the reset, and the same total and toggle as before. */
  lemma ResetSessionView(x: Extension, now: int, later: int)
    ensures var v := LoadData(ResetSession(x, true, now).storage, later);
            && v.session == EmptySession(now)
            && v.total == LoadData(x.storage, later).total
            && v.toastEnabled == LoadData(x.storage, later).toastEnabled
  {
  }

  /** After a confirmed full reset the popup shows the zero total and the
      zero session started at the reset, with the toggle unchanged. */
  lemma ResetAllView(x: Extension, now: int, later: int)
    ensures var v := LoadData(ResetAll(x, true, true, now).storage, later);
            && v.total == EmptyTotal()
            && v.session == EmptySession(now)
            && v.toastEnabled == LoadData(x.storage, later).toastEnabled
  {
  }

  /** The notification toggle writes only `toastEnabled`. */
  function SetToastEnabled(x: Extension, enabled: bool): (y: Extension)
    ensures ToastEnabled(y.storage) == enabled
    ensures y.storage.(toastEnabled := x.storage.toastEnabled) == x.storage
    ensures y.badge == x.badge
  {
    x.(storage := x.storage.(toastEnabled := Some(enabled)))
  }

  // ---------------------------------------------------------------------
  // Breakdown list

  /** One line of the breakdown list. */
  datatype Row = Row(model: string, stats: Entry)

  /** A key of `m` with the largest count. */
  method MaxCountKey(m: map<string, Entry>) returns (k: string)
    requires m != map[]
    ensures k in m
    ensures forall j :: j in m ==> m[j].count <= m[k].count
  {
    var keys := m.Keys;
    k :| k in keys;
    keys := keys - {k};
    while keys != {}
      invariant keys <= m.Keys && k in m
      invariant forall j :: j in m && j !in keys ==> m[j].count <= m[k].count
      decreases keys
    {
      var j :| j in keys;
      if m[j].count > m[k].count {
        k := j;
      }
      keys := keys - {j};
    }
  }

  /** The models a list of rows names. */
  function ModelsOf(rows: seq<Row>): set<string> {
    set i | 0 <= i < |rows| :: rows[i].model
  }

  lemma ModelsOfAppend(rows: seq<Row>, r: Row)
    ensures ModelsOf(rows + [r]) == ModelsOf(rows) + {r.model}
  {
    var l := rows + [r];
    forall k | k in ModelsOf(rows) ensures k in ModelsOf(l) {
      var i :| 0 <= i < |rows| && rows[i].model == k;
      assert l[i].model == k;
    }
    assert l[|rows|].model == r.model;
  }

  /** Midway through building the breakdown list: `rows` holds the entries
      already listed, by descending count, none of them smaller than an entry
      still in `rest`, and `rest` holds exactly the entries not yet listed. */
  ghost predicate Listing(m: map<string, Entry>, rows: seq<Row>, rest: map<string, Entry>) {
    && (forall k :: k in rest ==> k in m && rest[k] == m[k])
    && ModelsOf(rows) + rest.Keys == m.Keys
    && ModelsOf(rows) !! rest.Keys
    && (forall i :: 0 <= i < |rows| ==> rows[i].model in m && m[rows[i].model] == rows[i].stats)
    && (forall i, j :: 0 <= i < j < |rows| ==> rows[i].model != rows[j].model)
    && (forall i, j :: 0 <= i < j < |rows| ==> rows[i].stats.count >= rows[j].stats.count)
    && (forall i, k :: 0 <= i < |rows| && k in rest ==> rows[i].stats.count >= rest[k].count)
  }

  /** Listing a largest remaining entry next keeps the listing in order. */
  lemma ListingStep(m: map<string, Entry>, rows: seq<Row>, rest: map<string, Entry>, k: string)
    requires Listing(m, rows, rest)
    requires k in rest && forall j :: j in rest ==> rest[j].count <= rest[k].count
    ensures Listing(m, rows + [Row(k, rest[k])], rest - {k})
  {
    var r := Row(k, rest[k]);
    ModelsOfAppend(rows, r);
    assert (rest - {k}).Keys == rest.Keys - {k};
    StepEntries(m, rows, r);
    StepDistinct(rows, r);
    StepSorted(rows, r, rest);
    StepBound(rows, r, rest);
  }

  lemma StepEntries(m: map<string, Entry>, rows: seq<Row>, r: Row)
    requires forall i :: 0 <= i < |rows| ==> rows[i].model in m && m[rows[i].model] == rows[i].stats
    requires r.model in m && m[r.model] == r.stats
    ensures forall i :: 0 <= i < |rows + [r]| ==> (rows + [r])[i].model in m && m[(rows + [r])[i].model] == (rows + [r])[i].stats
  {
  }

  lemma StepDistinct(rows: seq<Row>, r: Row)
    requires forall i, j :: 0 <= i < j < |rows| ==> rows[i].model != rows[j].model
    requires r.model !in ModelsOf(rows)
    ensures forall i, j :: 0 <= i < j < |rows + [r]| ==> (rows + [r])[i].model != (rows + [r])[j].model
  {
    forall i, j | 0 <= i < j < |rows + [r]| ensures (rows + [r])[i].model != (rows + [r])[j].model {
      if j == |rows| {
        assert rows[i].model in ModelsOf(rows);
      }
    }
  }

  lemma StepSorted(rows: seq<Row>, r: Row, rest: map<string, Entry>)
    requires forall i, j :: 0 <= i < j < |rows| ==> rows[i].stats.count >= rows[j].stats.count
    requires forall i, k :: 0 <= i < |rows| && k in rest ==> rows[i].stats.count >= rest[k].count
    requires r.model in rest && rest[r.model] == r.stats
    ensures forall i, j :: 0 <= i < j < |rows + [r]| ==> (rows + [r])[i].stats.count >= (rows + [r])[j].stats.count
  {
  }

  lemma StepBound(rows: seq<Row>, r: Row, rest: map<string, Entry>)
    requires forall i, k :: 0 <= i < |rows| && k in rest ==> rows[i].stats.count >= rest[k].count
    requires r.model in rest && forall j :: j in rest ==> rest[j].count <= r.stats.count
    ensures forall i, k :: 0 <= i < |rows + [r]| && k in rest - {r.model} ==> (rows + [r])[i].stats.count >= (rest - {r.model})[k].count
  {
  }

  /** A finished listing holds every entry exactly once, in order. */
  lemma ListingDone(m: map<string, Entry>, rows: seq<Row>)
    requires Listing(m, rows, map[])
    ensures m == map[] <==> rows == []
    ensures ModelsOf(rows) == m.Keys
    ensures forall i :: 0 <= i < |rows| ==> m[rows[i].model] == rows[i].stats
  {
    if rows != [] {
      assert rows[0].model in ModelsOf(rows);
    }
    if m != map[] {
      var k :| k in m;
      assert k in ModelsOf(rows);
    }
  }

  /** `displayModelBreakdown`: every entry of the map exactly once, by
      descending count; nothing for an empty map. Ties come out in an
      unspecified order. */
  method DisplayModelBreakdown(m: map<string, Entry>) returns (rows: seq<Row>)
    ensures m == map[] <==> rows == []
    ensures ModelsOf(rows) == m.Keys
    ensures forall i :: 0 <= i < |rows| ==> m[rows[i].model] == rows[i].stats
    ensures forall i, j :: 0 <= i < j < |rows| ==> rows[i].model != rows[j].model
    ensures forall i, j :: 0 <= i < j < |rows| ==> rows[i].stats.count >= rows[j].stats.count
  {
    rows := [];
    var rest := m;
    while rest != map[]
      invariant Listing(m, rows, rest)
      decreases |rest|
    {
      var k := MaxCountKey(rest);
      ListingStep(m, rows, rest, k);
      rows := rows + [Row(k, rest[k])];
      rest := rest - {k};
    }
    ListingDone(m, rows);
  }
}

=== FILE: rates.dfy ===
/** The two per-site rate tables (Wh per 1000 tokens) and the usage estimator
    `calculateUsage` that both content scripts define identically. */
module Rates {
  import opened Optional

  /** The chat site a content script runs on. */
  datatype Site = ChatGpt | Claude

  const DefaultKey: string := "default"

  /** `ENERGY_RATES` of the ChatGPT content script. */
  const ChatGptRates: map<string, real> := map[
    "gpt-3.5-turbo" := 0.5,
    "gpt-4" := 2.0,
    "gpt-4-turbo" := 1.5,
    "o1" := 3.0,
    "o1-mini" := 1.0,
    "default" := 2.0
  ]

  /** `ENERGY_RATES` of the Claude content script. */
  const ClaudeRates: map<string, real> := map[
    "claude-opus-4" := 2.5,
    "claude-opus" := 2.5,
    "claude-sonnet-4.5" := 1.8,
    "claude-sonnet-4" := 1.8,
    "claude-sonnet-3.5" := 1.5,
    "claude-sonnet" := 1.5,
    "claude-haiku-3.5" := 0.4,
    "claude-haiku" := 0.4,
    "claude-instant" := 0.3,
    "default" := 1.8
  ]

  /** Liters of cooling water per kWh. */
  const WaterLitersPerKwh: real := 0.35

  /** The model each site's detection reports when no heuristic matches. */
  const ChatGptFallbackModel: string := "gpt-4"
  const ClaudeFallbackModel: string := "claude-sonnet-4.5"

  function RateTable(site: Site): (table: map<string, real>)
    ensures DefaultKey in table
    ensures table[DefaultKey] == (if site == ChatGpt then 2.0 else 1.8)
  {
    match site
    case ChatGpt => ChatGptRates
    case Claude => ClaudeRates
  }

  /** Every rate either table lists is positive. */
  lemma RatesPositive(site: Site)
    ensures forall m :: m in RateTable(site) ==> RateTable(site)[m] > 0.0
  {
  }

  /** `ENERGY_RATES[model] || ENERGY_RATES['default']`: a missing entry, and
      also a zero one (zero is falsy), falls back to the default rate. */
  function LookupRate(table: map<string, real>, model: string): (rate: real)
    requires DefaultKey in table
    ensures rate == table[DefaultKey] || (model in table && rate == table[model])
    ensures model in table && table[model] != 0.0 ==> rate == table[model]
    ensures table[DefaultKey] != 0.0 ==> rate != 0.0
  {
    if model in table && table[model] != 0.0 then table[model] else table[DefaultKey]
  }

  /** The rate a site's estimator uses for `model`: the table's own entry
      when it has one, the table's default otherwise. */
  function Rate(site: Site, model: string): (rate: real)
    ensures model in RateTable(site) ==> rate == RateTable(site)[model]
    ensures model !in RateTable(site) ==> rate == RateTable(site)[DefaultKey]
    ensures rate > 0.0
  {
    LookupRate(RateTable(site), model)
  }

  /** The site's rate table as a pricing of model names. */
  function SitePrice(site: Site): (price: string -> real)
    ensures forall m :: price(m) == Rate(site, m)
  {
    m => Rate(site, m)
  }

  /** The model recorded for a turn: what detection found, or the site's fallback. */
  function ModelOrFallback(site: Site, detected: Option<string>): (model: string)
    ensures detected.Some? ==> model == detected.value
    ensures detected.None? ==> model in RateTable(site)
    ensures detected.None? ==> model == (if site == ChatGpt then ChatGptFallbackModel else ClaudeFallbackModel)
  {
    match site
    case ChatGpt => detected.GetOr(ChatGptFallbackModel)
    case Claude => detected.GetOr(ClaudeFallbackModel)
  }

  /** Energy and water attributed to one conversational turn. */
  datatype Estimate = Estimate(energyWh: real, waterLiters: real)

  /** `calculateUsage(tokens, model)`: energy is `tokens * rate / 1000` Wh,
      water is 0.35 L per kWh of that energy. */
  function CalculateUsage(site: Site, tokens: nat, model: string): (e: Estimate)
    ensures e.energyWh >= 0.0 && e.waterLiters >= 0.0
    ensures tokens == 0 <==> e.energyWh == 0.0
    ensures e.energyWh * 1000.0 == tokens as real * Rate(site, model)
    ensures e.waterLiters * 1000.0 == e.energyWh * WaterLitersPerKwh
  {
    var ratePerToken := Rate(site, model) / 1000.0;
    var energyWh := tokens as real * ratePerToken;
    var energyKwh := energyWh / 1000.0;
    Estimate(energyWh, energyKwh * WaterLitersPerKwh)
  }

  /** Energy is additive in tokens: splitting a turn's tokens in two parts
      splits its energy and water the same way. */
  lemma CalculateUsageAdditive(site: Site, a: nat, b: nat, model: string)
    ensures CalculateUsage(site, a + b, model).energyWh
         == CalculateUsage(site, a, model).energyWh + CalculateUsage(site, b, model).energyWh
    ensures CalculateUsage(site, a + b, model).waterLiters
         == CalculateUsage(site, a, model).waterLiters + CalculateUsage(site, b, model).waterLiters
  {
    var r := Rate(site, model);
    assert (a + b) as real * r == a as real * r + b as real * r;
  }

  /** More tokens on the same model never cost less energy. */
  lemma CalculateUsageMonotone(site: Site, a: nat, b: nat, model: string)
    requires a <= b
    ensures CalculateUsage(site, a, model).energyWh <= CalculateUsage(site, b, model).energyWh
  {
    CalculateUsageAdditive(site, a, b - a, model);
  }

  /** An unknown model costs exactly the default rate on either site
      (2.0 Wh per 1000 tokens on ChatGPT, 1.8 on Claude). */
  lemma UnknownModelUsesDefault(site: Site, tokens: nat, model: string)
    requires model !in RateTable(site)
    ensures CalculateUsage(site, tokens, model) == CalculateUsage(site, tokens, DefaultKey)
    ensures site == ChatGpt ==> Rate(site, model) == 2.0
    ensures site == Claude ==> Rate(site, model) == 1.8
  {
  }

  /** On Claude, a failed model detection and an unknown model name give the
      same energy: the fallback model is rated like the default entry. */
  lemma ClaudeFallbackMatchesDefault(tokens: nat, model: string)
    requires model !in ClaudeRates
    ensures CalculateUsage(Claude, tokens, ModelOrFallback(Claude, None))
         == CalculateUsage(Claude, tokens, model)
  {
  }

  /** The Claude table ranks families for a fixed token count:
      opus >= every sonnet >= every haiku >= instant. */
  lemma ClaudeFamilyOrdering(tokens: nat)
    ensures var opus := CalculateUsage(Claude, tokens, "claude-opus").energyWh;
            var sonnets := [CalculateUsage(Claude, tokens, "claude-sonnet-4.5").energyWh,
                            CalculateUsage(Claude, tokens, "claude-sonnet-4").energyWh,
                            CalculateUsage(Claude, tokens, "claude-sonnet-3.5").energyWh,
                            CalculateUsage(Claude, tokens, "claude-sonnet").energyWh];
            var haikus := [CalculateUsage(Claude, tokens, "claude-haiku-3.5").energyWh,
                           CalculateUsage(Claude, tokens, "claude-haiku").energyWh];
            var instant := CalculateUsage(Claude, tokens, "claude-instant").energyWh;
            && (forall i :: 0 <= i < |sonnets| ==> opus >= sonnets[i])
            && (forall i, j :: 0 <= i < |sonnets| && 0 <= j < |haikus| ==> sonnets[i] >= haikus[j])
            && (forall j :: 0 <= j < |haikus| ==> haikus[j] >= instant)
  {
  }

  /** 1000 tokens on `gpt-4` cost 2.0 Wh and 0.0007 L. */
  lemma Gpt4ThousandTokens()
    ensures CalculateUsage(ChatGpt, 1000, "gpt-4") == Estimate(2.0, 0.0007)
  {
  }
}

=== FILE: store.dfy ===
/** The extension's local key store, read and written by the background
    worker, the popup and the Claude content script, and the toolbar badge. */
module Store {
  import opened Optional
  import opened Usage

  /** The keys the extension keeps in local storage; a key never written is `None`. */
  datatype Storage = Storage(
    totalUsage: Option<Aggregate>,
    sessionUsage: Option<Aggregate>,
    history: Option<seq<UsageRecord>>,
    lastUpdated: Option<int>,
    toastEnabled: Option<bool>)

  /** Storage before anything was written. */
  function EmptyStorage(): Storage {
    Storage(None, None, None, None, None)
  }

  /** The whole observable state: storage plus the badge text on the toolbar icon. */
  datatype Extension = Extension(storage: Storage, badge: string)

  /** Stored aggregates keep the breakdown invariant and a stored history
      respects the 100-entry cap. */
  ghost predicate WellFormed(s: Storage) {
    && (s.totalUsage.Some? ==> Consistent(s.totalUsage.value))
    && (s.sessionUsage.Some? ==> Consistent(s.sessionUsage.value))
    && (s.history.Some? ==> |s.history.value| <= HistoryCap)
  }

  /** `result.toastEnabled !== undefined ? result.toastEnabled : true`. */
  function ToastEnabled(s: Storage): (enabled: bool)
    ensures s.toastEnabled.None? ==> enabled
    ensures s.toastEnabled.Some? ==> enabled == s.toastEnabled.value
  {
    s.toastEnabled.GetOr(true)
  }

  /** Stored total, or the zero total when none is stored. */
  function ReadTotal(s: Storage): (a: Aggregate)
    ensures s.totalUsage.Some? ==> a == s.totalUsage.value
    ensures s.totalUsage.None? ==> Totals(a) == ZeroEntry() && a.totalWaterLiters == 0.0
                                   && a.modelBreakdown == map[] && a.startTime.None?
  {
    s.totalUsage.GetOr(EmptyTotal())
  }

  /** Stored session, or a zero session started at `now` when none is stored. */
  function ReadSession(s: Storage, now: int): (a: Aggregate)
    ensures s.sessionUsage.Some? ==> a == s.sessionUsage.value
    ensures s.sessionUsage.None? ==> Totals(a) == ZeroEntry() && a.totalWaterLiters == 0.0
                                     && a.modelBreakdown == map[] && a.startTime == Some(now)
  {
    s.sessionUsage.GetOr(EmptySession(now))
  }

  /** Stored history, or the empty history when none is stored. */
  function ReadHistory(s: Storage): (h: seq<UsageRecord>)
    ensures s.history.Some? ==> h == s.history.value
    ensures s.history.None? ==> h == []
  {
    s.history.GetOr([])
  }

  /** Reading a well-formed store gives consistent aggregates and a capped
      history, whether the keys are present or filled with defaults. */
  lemma ReadWellFormed(s: Storage, now: int)
    requires WellFormed(s)
    ensures Consistent(ReadTotal(s)) && Consistent(ReadSession(s, now))
    ensures |ReadHistory(s)| <= HistoryCap
  {
    EmptyConsistent(now);
  }
}

=== FILE: text.dfy ===
/** Text handling of the content scripts: the JavaScript `trim()` used to
    detect blank messages, and the four-characters-per-token heuristic.
    A `char` here stands for one UTF-16 code unit, the unit JavaScript's
    `length` counts; a surrogate code unit, which a Dafny `char` cannot be,
    is stood for by any non-whitespace `char`. */
module Text {

  /** The code points `String.prototype.trim` removes: WhiteSpace (tab,
      vertical tab, form feed, space, no-break space, byte order mark and
      the Zs category) and LineTerminator (LF, CR, LS, PS). */
  predicate IsJsWhitespace(c: char) {
    || c == '\t' || c == '\n' || c == '\U{000B}' || c == '\U{000C}' || c == '\r'
    || c == ' ' || c == '\U{00A0}' || c == '\U{1680}'
    || ('\U{2000}' <= c <= '\U{200A}')
    || c == '\U{2028}' || c == '\U{2029}' || c == '\U{202F}' || c == '\U{205F}'
    || c == '\U{3000}' || c == '\U{FEFF}'
  }

  /** `s` with its leading whitespace removed. */
  function TrimStart(s: string): (r: string)
    ensures |r| <= |s| && r == s[|s| - |r|..]
    ensures forall i :: 0 <= i < |s| - |r| ==> IsJsWhitespace(s[i])
    ensures r != [] ==> !IsJsWhitespace(r[0])
    decreases |s|
  {
    if s != [] && IsJsWhitespace(s[0]) then TrimStart(s[1..]) else s
  }

  /** `s` with its trailing whitespace removed. */
  function TrimEnd(s: string): (r: string)
    ensures |r| <= |s| && r == s[..|r|]
    ensures forall i :: |r| <= i < |s| ==> IsJsWhitespace(s[i])
    ensures r != [] ==> !IsJsWhitespace(r[|r| - 1])
    decreases |s|
  {
    if s != [] && IsJsWhitespace(s[|s| - 1]) then TrimEnd(s[..|s| - 1]) else s
  }

  /** `s.trim()`: the result is no longer than `s`, neither starts nor
      ends with whitespace, is what is left of `s` once its leading
      whitespace is dropped and only whitespace is cut from the end, and is
      empty exactly when `s` is all whitespace. */
  function Trim(s: string): (r: string)
    ensures |r| <= |s|
    ensures r != [] ==> !IsJsWhitespace(r[0]) && !IsJsWhitespace(r[|r| - 1])
    ensures |r| <= |TrimStart(s)| && r == TrimStart(s)[..|r|]
    ensures forall i :: |r| <= i < |TrimStart(s)| ==> IsJsWhitespace(TrimStart(s)[i])
    ensures r == [] <==> forall i :: 0 <= i < |s| ==> IsJsWhitespace(s[i])
  {
    var t := TrimStart(s);
    TrimStartEmpty(s);
    assert t != [] ==> TrimEnd(t) != [] by {
      if t != [] {
        assert !IsJsWhitespace(t[0]);
      }
    }
    TrimEnd(t)
  }

  /** Trimming the front empties exactly the all-whitespace strings. */
  lemma TrimStartEmpty(s: string)
    ensures TrimStart(s) == [] <==> forall i :: 0 <= i < |s| ==> IsJsWhitespace(s[i])
  {
    var t := TrimStart(s);
    if t != [] {
      assert s[|s| - |t|] == t[0];
    }
  }

  /** The content scripts' blank test `!text || text.trim().length === 0`
      (the empty string is the only falsy string): trimming the front alone
      already empties a blank text, and only a blank one. */
  predicate IsBlank(text: string)
    ensures IsBlank(text) <==> TrimStart(text) == []
  {
    var t := TrimStart(text);
    assert t != [] ==> TrimEnd(t) != [] by {
      if t != [] {
        assert !IsJsWhitespace(t[0]);
      }
    }
    |Trim(text)| == 0
  }

  /** A message is blank exactly when every character of it is whitespace. */
  lemma BlankIffAllWhitespace(text: string)
    ensures IsBlank(text) <==> forall i :: 0 <= i < |text| ==> IsJsWhitespace(text[i])
  {
    TrimStartEmpty(text);
  }

  /** `Math.ceil(length / 4)`: one token per four characters, rounded up. */
  function EstimateTokens(length: nat): (t: nat)
    ensures 4 * t >= length
    ensures 4 * t < length + 4
    ensures t == 0 <==> length == 0
  {
    (length + 3) / 4
  }

  /** Longer text never yields fewer tokens. */
  lemma EstimateTokensMonotone(a: nat, b: nat)
    requires a <= b
    ensures EstimateTokens(a) <= EstimateTokens(b)
  {
  }
}

=== FILE: usage.dfy ===
/** The aggregate records of the background worker: per-model breakdown
    entries, the total and session aggregates, the usage record a content
    script sends, the merge of one record into an aggregate, and the
    100-entry history. */
module Usage {
  import opened Optional
  import opened Rates

  /** A `modelBreakdown` entry. */
  datatype Entry = Entry(count: nat, tokens: nat, energyWh: real)

  function ZeroEntry(): Entry {
    Entry(0, 0, 0.0)
  }

  function Plus(a: Entry, b: Entry): Entry {
    Entry(a.count + b.count, a.tokens + b.tokens, a.energyWh + b.energyWh)
  }

  lemma PlusAssoc(a: Entry, b: Entry, c: Entry)
    ensures Plus(Plus(a, b), c) == Plus(a, Plus(b, c))
  {
  }

  lemma PlusZero(e: Entry)
    ensures Plus(ZeroEntry(), e) == e
  {
  }

  /** `totalUsage` / `sessionUsage`. Only the session aggregate carries a
      `startTime`. */
  datatype Aggregate = Aggregate(
    totalTokens: nat,
    totalEnergyWh: real,
    totalWaterLiters: real,
    conversationCount: nat,
    modelBreakdown: map<string, Entry>,
    startTime: Option<int>)

  /** The zero total aggregate written on install, on full reset and when
      storage holds none. */
  function EmptyTotal(): (a: Aggregate)
    ensures a.totalTokens == 0 && a.conversationCount == 0 && a.modelBreakdown == map[]
    ensures a.totalEnergyWh == 0.0 && a.totalWaterLiters == 0.0 && a.startTime.None?
  {
    Aggregate(0, 0.0, 0.0, 0, map[], None)
  }

  /** The zero session aggregate, started at `now`. */
  function EmptySession(now: int): (a: Aggregate)
    ensures a.totalTokens == 0 && a.conversationCount == 0 && a.modelBreakdown == map[]
    ensures a.totalEnergyWh == 0.0 && a.totalWaterLiters == 0.0 && a.startTime == Some(now)
  {
    Aggregate(0, 0.0, 0.0, 0, map[], Some(now))
  }

  /** The `data` of a `USAGE_RECORDED` message, also the history element. */
  datatype UsageRecord = UsageRecord(
    site: Site,
    model: string,
    userTokens: nat,
    responseTokens: nat,
    totalTokens: nat,
    energyWh: real,
    waterLiters: real,
    timestamp: int)

  /** The aggregate-level totals an aggregate claims, as one entry. */
  function Totals(a: Aggregate): Entry {
    Entry(a.conversationCount, a.totalTokens, a.totalEnergyWh)
  }

  /** The entry for `model`, zero when absent. */
  function Lookup(m: map<string, Entry>, model: string): Entry {
    if model in m then m[model] else ZeroEntry()
  }

  function EntryOf(a: Aggregate, model: string): Entry {
    Lookup(a.modelBreakdown, model)
  }

  /** One record's contribution to a breakdown entry. */
  function Contribution(u: UsageRecord): Entry {
    Entry(1, u.totalTokens, u.energyWh)
  }

  /** Folds one record into an aggregate: every total grows by the record's
      figures, the conversation count by one, and the record's model entry
      (created at zero if absent) by one conversation and the record's
      tokens and energy. */
  function Merge(a: Aggregate, u: UsageRecord): (r: Aggregate)
    ensures Totals(r) == Plus(Totals(a), Contribution(u))
    ensures r.totalWaterLiters == a.totalWaterLiters + u.waterLiters
    ensures r.startTime == a.startTime
    ensures r.modelBreakdown.Keys == a.modelBreakdown.Keys + {u.model}
    ensures r.modelBreakdown[u.model] == Plus(EntryOf(a, u.model), Contribution(u))
    ensures forall m :: m in a.modelBreakdown && m != u.model ==> r.modelBreakdown[m] == a.modelBreakdown[m]
  {
    var e := EntryOf(a, u.model);
    Aggregate(
      a.totalTokens + u.totalTokens,
      a.totalEnergyWh + u.energyWh,
      a.totalWaterLiters + u.waterLiters,
      a.conversationCount + 1,
      a.modelBreakdown[u.model := Entry(e.count + 1, e.tokens + u.totalTokens, e.energyWh + u.energyWh)],
      a.startTime)
  }

  // ---------------------------------------------------------------------
  // Sums over the breakdown

  ghost function Pick(m: map<string, Entry>): (k: string)
    requires m != map[]
    ensures k in m
  {
    var k :| k in m; k
  }

  /** The component-wise sum of all breakdown entries. */
  ghost function Sum(m: map<string, Entry>): Entry
    decreases |m|
  {
    if m == map[] then ZeroEntry()
    else
      var k := Pick(m);
      assert (m - {k}).Keys == m.Keys - {k};
      Plus(m[k], Sum(m - {k}))
  }

  /** The sum may be split at any key, not only at the one `Sum` picks. */
  lemma {:induction false} SumRemove(m: map<string, Entry>, k: string)
    requires k in m
    ensures Sum(m) == Plus(m[k], Sum(m - {k}))
    decreases |m|
  {
    var j := Pick(m);
    if j != k {
      assert (m - {j}).Keys == m.Keys - {j};
      assert (m - {k}).Keys == m.Keys - {k};
      SumRemove(m - {j}, k);
      SumRemove(m - {k}, j);
      assert m - {j} - {k} == m - {k} - {j};
    }
  }

  /** Replacing (or adding) one entry changes the sum by exactly that entry. */
  lemma SumUpdate(m: map<string, Entry>, k: string, e: Entry)
    ensures Plus(Sum(m[k := e]), Lookup(m, k)) == Plus(Sum(m), e)
  {
    var m' := m[k := e];
    SumRemove(m', k);
    assert m' - {k} == m - {k};
    if k in m {
      SumRemove(m, k);
    } else {
      assert m - {k} == m;
    }
  }

  /** The breakdown invariant: summed over models, count, tokens and energy
      equal the aggregate's conversation count, total tokens and total energy. */
  ghost predicate Consistent(a: Aggregate) {
    Sum(a.modelBreakdown) == Totals(a)
  }

  lemma EmptyConsistent(now: int)
    ensures Consistent(EmptyTotal()) && Consistent(EmptySession(now))
  {
  }

  /** Merging a record keeps the breakdown invariant. */
  lemma MergeConsistent(a: Aggregate, u: UsageRecord)
    requires Consistent(a)
    ensures Consistent(Merge(a, u))
  {
    var e := EntryOf(a, u.model);
    SumUpdate(a.modelBreakdown, u.model, Plus(e, Contribution(u)));
  }

  /** Merging is order-independent: two records folded in either order give
      the very same aggregate. */
  lemma MergeCommutes(a: Aggregate, x: UsageRecord, y: UsageRecord)
    ensures Merge(Merge(a, x), y) == Merge(Merge(a, y), x)
  {
    var l := Merge(Merge(a, x), y);
    var r := Merge(Merge(a, y), x);
    forall m | m in l.modelBreakdown
      ensures m in r.modelBreakdown && l.modelBreakdown[m] == r.modelBreakdown[m]
    {
      MergeEntry(Merge(a, x), y, m);
      MergeEntry(a, x, m);
      MergeEntry(Merge(a, y), x, m);
      MergeEntry(a, y, m);
      assert EntryOf(l, m) == EntryOf(r, m);
    }
    assert l.modelBreakdown == r.modelBreakdown;
  }

  // ---------------------------------------------------------------------
  // Folding a sequence of records

  /** Merging the records of `us` into `a`, oldest first. */
  function Fold(a: Aggregate, us: seq<UsageRecord>): (r: Aggregate)
    ensures r.conversationCount == a.conversationCount + |us|
    ensures r.startTime == a.startTime
    ensures a.modelBreakdown.Keys <= r.modelBreakdown.Keys
    decreases |us|
  {
    if us == [] then a else Fold(Merge(a, us[0]), us[1..])
  }

  /** Any sequence of merges keeps the breakdown invariant. */
  lemma {:induction false} FoldConsistent(a: Aggregate, us: seq<UsageRecord>)
    requires Consistent(a)
    ensures Consistent(Fold(a, us))
    decreases |us|
  {
    if us != [] {
      MergeConsistent(a, us[0]);
      FoldConsistent(Merge(a, us[0]), us[1..]);
    }
  }

  /** Reference tally: the records of `us` for `model`, summed. */
  function Tally(us: seq<UsageRecord>, model: string): Entry
    decreases |us|
  {
    if us == [] then ZeroEntry()
    else Plus(if us[0].model == model then Contribution(us[0]) else ZeroEntry(), Tally(us[1..], model))
  }

  /** Reference tally of all records, whatever their model. */
  function TallyAll(us: seq<UsageRecord>): Entry
    decreases |us|
  {
    if us == [] then ZeroEntry() else Plus(Contribution(us[0]), TallyAll(us[1..]))
  }

  /** The water the records carry, summed. */
  function WaterSum(us: seq<UsageRecord>): real
    decreases |us|
  {
    if us == [] then 0.0 else us[0].waterLiters + WaterSum(us[1..])
  }

  /** Folding from any aggregate grows its water total by the records' water. */
  lemma {:induction false} FoldWater(a: Aggregate, us: seq<UsageRecord>)
    ensures Fold(a, us).totalWaterLiters == a.totalWaterLiters + WaterSum(us)
    decreases |us|
  {
    if us != [] {
      FoldWater(Merge(a, us[0]), us[1..]);
    }
  }

  /** Folding from any aggregate grows its totals by the tally of all records. */
  lemma {:induction false} FoldTotals(a: Aggregate, us: seq<UsageRecord>)
    ensures Totals(Fold(a, us)) == Plus(Totals(a), TallyAll(us))
    decreases |us|
  {
    if us != [] {
      FoldTotals(Merge(a, us[0]), us[1..]);
    }
  }

  /** Merging grows a model's entry by the record's contribution when the
      record names that model, and leaves it alone otherwise. */
  lemma MergeEntry(a: Aggregate, u: UsageRecord, model: string)
    ensures EntryOf(Merge(a, u), model)
         == Plus(EntryOf(a, model), if u.model == model then Contribution(u) else ZeroEntry())
  {
    var r := Merge(a, u);
    if u.model == model {
      assert r.modelBreakdown[model] == Plus(EntryOf(a, model), Contribution(u));
    } else if model in a.modelBreakdown {
      assert r.modelBreakdown[model] == a.modelBreakdown[model];
    } else {
      assert model !in r.modelBreakdown;
    }
  }

  /** Folding grows a model's entry by the tally of that model's records. */
  lemma {:induction false} FoldEntry(a: Aggregate, us: seq<UsageRecord>, model: string)
    ensures EntryOf(Fold(a, us), model) == Plus(EntryOf(a, model), Tally(us, model))
    decreases |us|
  {
    if us != [] {
      var a' := Merge(a, us[0]);
      var c := if us[0].model == model then Contribution(us[0]) else ZeroEntry();
      FoldEntry(a', us[1..], model);
      MergeEntry(a, us[0], model);
      assert EntryOf(Fold(a, us), model) == EntryOf(Fold(a', us[1..]), model);
      assert Tally(us, model) == Plus(c, Tally(us[1..], model));
      PlusAssoc(EntryOf(a, model), c, Tally(us[1..], model));
    }
  }

  /** After folding, a model has an entry exactly when it had one before or
      one of the records names it. */
  lemma {:induction false} FoldKeys(a: Aggregate, us: seq<UsageRecord>)
    ensures Fold(a, us).modelBreakdown.Keys
         == a.modelBreakdown.Keys + (set i | 0 <= i < |us| :: us[i].model)
    decreases |us|
  {
    if us != [] {
      FoldKeys(Merge(a, us[0]), us[1..]);
      var tail := set i | 0 <= i < |us[1..]| :: us[1..][i].model;
      var all := set i | 0 <= i < |us| :: us[i].model;
      assert all == {us[0].model} + tail by {
        forall m | m in all ensures m in {us[0].model} + tail {
          var i :| 0 <= i < |us| && us[i].model == m;
          if i > 0 {
            assert us[1..][i - 1].model == m;
          }
        }
        forall m | m in tail ensures m in all {
          var i :| 0 <= i < |us[1..]| && us[1..][i].model == m;
          assert us[i + 1].model == m;
        }
      }
    }
  }

  /** Starting from zero, the totals are the tally of all records, and the
      conversation count is the number of records. */
  lemma FoldFromEmptyTotals(us: seq<UsageRecord>)
    ensures Totals(Fold(EmptyTotal(), us)) == TallyAll(us)
    ensures Fold(EmptyTotal(), us).conversationCount == |us|
    ensures Fold(EmptyTotal(), us).totalWaterLiters == WaterSum(us)
  {
    FoldTotals(EmptyTotal(), us);
    PlusZero(TallyAll(us));
    FoldWater(EmptyTotal(), us);
  }

  /** Starting from zero, each model's entry is the tally of that model's records. */
  lemma FoldFromEmptyEntry(us: seq<UsageRecord>, model: string)
    ensures EntryOf(Fold(EmptyTotal(), us), model) == Tally(us, model)
  {
    FoldEntry(EmptyTotal(), us, model);
    PlusZero(Tally(us, model));
  }

  /** Starting from zero, the models with an entry are exactly the recorded ones. */
  lemma FoldFromEmptyKeys(us: seq<UsageRecord>)
    ensures Fold(EmptyTotal(), us).modelBreakdown.Keys == set i | 0 <= i < |us| :: us[i].model
  {
    FoldKeys(EmptyTotal(), us);
  }

  lemma {:induction false} TallyAllCount(us: seq<UsageRecord>)
    ensures TallyAll(us).count == |us|
    decreases |us|
  {
    if us != [] {
      TallyAllCount(us[1..]);
    }
  }

  // ---------------------------------------------------------------------
  // Agreement with the estimator

  /** A record priced by `price` (Wh per 1000 tokens of each model):
      `tokens * price / 1000` Wh, and 0.35 L of water per kWh of that. */
  predicate Priced(price: string -> real, u: UsageRecord) {
    && u.energyWh * 1000.0 == u.totalTokens as real * price(u.model)
    && u.waterLiters * 1000.0 == u.energyWh * WaterLitersPerKwh
  }

  /** A record whose energy and water follow one rate per token is priced
      by any pricing that charges that rate for its model. */
  lemma PricedByRate(price: string -> real, u: UsageRecord, rate: real)
    requires price(u.model) == rate
    requires u.energyWh * 1000.0 == u.totalTokens as real * rate
    requires u.waterLiters * 1000.0 == u.energyWh * WaterLitersPerKwh
    ensures Priced(price, u)
  {
  }

  /** A breakdown entry of `model` whose energy is what `price` gives for its tokens. */
  predicate PricedEntry(price: string -> real, model: string, e: Entry) {
    e.energyWh * 1000.0 == e.tokens as real * price(model)
  }

  /** An aggregate whose every breakdown entry holds the energy `price`
      gives for the entry's tokens, and whose water total is 0.35 L per kWh
      of its energy total. */
  ghost predicate Calibrated(price: string -> real, a: Aggregate) {
    && (forall m :: m in a.modelBreakdown ==> PricedEntry(price, m, a.modelBreakdown[m]))
    && a.totalWaterLiters * 1000.0 == a.totalEnergyWh * WaterLitersPerKwh
  }

  lemma MergeCalibrated(price: string -> real, a: Aggregate, u: UsageRecord)
    requires Calibrated(price, a) && Priced(price, u)
    ensures Calibrated(price, Merge(a, u))
  {
    var r := Merge(a, u);
    MergeCalibratedEntry(price, a, u);
    forall m | m in r.modelBreakdown
      ensures PricedEntry(price, m, r.modelBreakdown[m])
    {
      if m != u.model {
        assert r.modelBreakdown[m] == a.modelBreakdown[m];
      }
    }
  }

  /** The merged record's own model entry stays priced. */
  lemma MergeCalibratedEntry(price: string -> real, a: Aggregate, u: UsageRecord)
    requires Calibrated(price, a) && Priced(price, u)
    ensures PricedEntry(price, u.model, Merge(a, u).modelBreakdown[u.model])
  {
    EntryOfPriced(price, a, u.model);
    PricedPlus(price, u.model, EntryOf(a, u.model), Contribution(u));
  }

  /** A calibrated aggregate's entry of any model, present or read as zero, is priced. */
  lemma EntryOfPriced(price: string -> real, a: Aggregate, model: string)
    requires Calibrated(price, a)
    ensures PricedEntry(price, model, EntryOf(a, model))
  {
    if model !in a.modelBreakdown {
      assert 0.0 * price(model) == 0.0;
    }
  }

  /** Two entries priced at the same model's rate add up to a priced entry. */
  lemma PricedPlus(price: string -> real, model: string, x: Entry, y: Entry)
    requires PricedEntry(price, model, x) && PricedEntry(price, model, y)
    ensures PricedEntry(price, model, Plus(x, y))
  {
    var rate := price(model);
    assert (x.tokens + y.tokens) as real * rate == x.tokens as real * rate + y.tokens as real * rate;
  }

  /** Folding records priced by one pricing keeps every model's energy equal
      to that pricing of the model's token total. */
  lemma {:induction false} FoldCalibrated(price: string -> real, a: Aggregate, us: seq<UsageRecord>)
    requires Calibrated(price, a)
    requires forall i :: 0 <= i < |us| ==> Priced(price, us[i])
    ensures Calibrated(price, Fold(a, us))
    decreases |us|
  {
    if us != [] {
      MergeCalibrated(price, a, us[0]);
      FoldCalibrated(price, Merge(a, us[0]), us[1..]);
    }
  }

  // ---------------------------------------------------------------------
  // History

  const HistoryCap: nat := 100

  /** `history.push(u)` followed by one `shift()` when the length exceeds 100. */
  function AppendCapped<T>(h: seq<T>, u: T): (r: seq<T>)
    ensures |h| < HistoryCap ==> r == h + [u]
    ensures |h| >= HistoryCap ==> |r| == |h| && r == (h + [u])[1..]
    ensures |r| >= 1 && r[|r| - 1] == u
  {
    var pushed := h + [u];
    if |pushed| > HistoryCap then pushed[1..] else pushed
  }

  /** Appending the elements of `us` to a capped history one at a time. */
  function AppendAll<T>(h: seq<T>, us: seq<T>): (r: seq<T>)
    ensures |h| <= HistoryCap ==> |r| <= HistoryCap
    ensures us != [] ==> r != [] && Last(r) == Last(us)
    ensures us == [] ==> r == h
    decreases |us|
  {
    if us == [] then h else AppendAll(AppendCapped(h, us[0]), us[1..])
  }

  /** The newest element of a non-empty sequence. */
  function Last<T>(s: seq<T>): T
    requires s != []
  {
    s[|s| - 1]
  }

  /** The last `n` elements of `s`, oldest first. */
  function Newest<T>(s: seq<T>, n: nat): seq<T>
    requires n <= |s|
  {
    s[|s| - n..]
  }

  function Min(a: nat, b: nat): nat {
    if a <= b then a else b
  }

  /** A history within the cap stays within it and holds, oldest first, the
      last `min(n, 100)` of all elements appended to it. */
  lemma {:induction false} AppendAllKeepsNewest<T>(h: seq<T>, us: seq<T>)
    requires |h| <= HistoryCap
    ensures |AppendAll(h, us)| == Min(|h| + |us|, HistoryCap)
    ensures AppendAll(h, us) == Newest(h + us, Min(|h| + |us|, HistoryCap))
    decreases |us|
  {
    if us != [] {
      var h' := AppendCapped(h, us[0]);
      AppendAllKeepsNewest(h', us[1..]);
      AppendCappedThen(h, us);
    }
  }

  /** An empty history appended with any elements holds the newest
      `min(n, 100)` of them. */
  lemma AppendAllFromEmpty<T>(us: seq<T>)
    ensures AppendAll([], us) == Newest(us, Min(|us|, HistoryCap))
  {
    AppendAllKeepsNewest([], us);
    assert [] + us == us;
  }

  /** One capped append followed by the rest is the whole sequence, minus
      its first element when the history was full. */
  lemma AppendCappedThen<T>(h: seq<T>, us: seq<T>)
    requires |h| <= HistoryCap && us != []
    ensures |h| < HistoryCap ==> AppendCapped(h, us[0]) + us[1..] == h + us
    ensures |h| == HistoryCap ==> AppendCapped(h, us[0]) + us[1..] == (h + us)[1..]
  {
    if |h| < HistoryCap {
      assert h + [us[0]] + us[1..] == h + us;
    } else {
      assert (h + [us[0]])[1..] + us[1..] == (h + us)[1..];
    }
  }
}
